=== FILE: README.md ===
# Face detection UI: a Dafny model of its detection loop and lists

The application shows a webcam feed with a canvas on top and, after Start,
runs a face detector on an animation frame. The loop is meant to repeat on
every frame while detecting, but as written it stops after one cycle (see
"## Findings"). Each cycle outlines and numbers each detected face,
plays a sound and downloads a timestamped snapshot whenever a face is seen,
and lets the user save a named face to a gallery kept in local storage. A
second view manages a persisted list of camera URLs.

This project models the deterministic rules of that behaviour as pure
functions over immutable datatypes:

- `Decimal`: the decimal rendering of the face number in `Face N`, with its inverse.
- `Filenames`: the snapshot name `detection_<timestamp with ':' as '-'>.png`
  and the saved-face name `detect-faces/<name>.jpg`.
- `Overlay`: boxes, the op vocabulary of the canvas (clear, draw frame, draw
  image, sound, snapshot, stroked rectangle, label), and the
  rectangle-and-label ops for a list of detections.
- `Detection`: one live cycle (`detectFaces`) as an op trace plus the new
  detected-faces state and the re-arm decision, and the upload pipeline
  (`handleFileUpload` followed by `detectFacesInImage`).
- `Controller`: the Start/Stop toggle and the animation-frame loop driven by
  presses and frames, in two versions: the flag read when a cycle runs, and
  the flag each callback captured (as written).
- `Storage`: a list stored whole under one local-storage key.
- `Gallery`: `saveFace` and `addCustomCamera` in the main view.
- `Admin`: `addCamera`, `removeCamera` and the load and write-back of the
  administration view's camera list.

The detector, the browser and the clock are inputs: predictions are a
`seq<Box>` with integer corners, canvas data URLs are strings passed in, the
detection timestamp is a string passed in, and the presence of the model,
webcam, canvas, video element and drawing context are booleans.

Notable behaviours of the code that the model keeps:

- A cycle that fires after the loop was stopped still draws, plays the sound
  and takes the snapshot. There is no "still detecting" check before the
  render. This holds as written (`Controller.StoppedCycleStillDrawsAsWritten`)
  and in the corrected loop (`Controller.StoppedCycleStillDraws`).
- The snapshot is taken before the boxes are drawn, so it shows the frame
  without this cycle's boxes (`Detection.LiveCycleOrder`).
- The upload variant does not call `clearRect`. It resizes the canvas, draws
  the image and then the boxes. In a browser, the resize at src/App.tsx:137-138
  also clears the canvas; that is not modelled.
- `saveFace` silently does nothing, without any message, when there is a
  detection and a name but no canvas.
- The main view's custom cameras are never persisted. Only the administration
  view stores its list, under its own key.

In the corrected loop (`Controller.Step`, see "## Findings"), where each cycle
reads the flag when it runs, a stop followed by a start before the pending
frame fires leaves two cycle chains running
(`Controller.RestartBeforeFrameDoublesLoop`). There, single-cycle cadence holds
only when each start comes after the previous chain has ended
(`Controller.SingleCadence`). As written, the same presses queue two callbacks
that each run one cycle and then stop (`Controller.RestartBeforeFrameAsWritten`).

## Model

| member | source | states |
|---|---|---|
| `Decimal.NatToString` | src/App.tsx:84 | the face number is rendered as a non-empty digit string with no leading zero, and `0` only for zero |
| `Decimal.ParseNatToString` | src/App.tsx:84 | reading the rendered number back as decimal gives the number |
| `Decimal.NatToStringInjective` | src/App.tsx:84 | different numbers are rendered as different strings |
| `Filenames.ReplaceColons` | src/App.tsx:62 | replacing every colon with a dash keeps the length, turns each colon into a dash, keeps every other character in place, and leaves no colon |
| `Filenames.SnapshotFilename` | src/App.tsx:62-64 | the snapshot name starts with `detection_` and ends with `.png`. Between them is the timestamp with its colons replaced: same length, no colon, and every non-colon character unchanged |
| `Filenames.FaceFilename` | src/App.tsx:119 | the saved face is downloaded as `detect-faces/` + name + `.jpg`, with the name intact in the middle |
| `Filenames.ReplaceColonsIdempotent` | src/App.tsx:62 | replacing colons a second time changes nothing |
| `Filenames.SnapshotFilenameCollision` | src/App.tsx:62-64 | two timestamps give the same snapshot name if and only if they agree once colons are read as dashes |
| `Filenames.SnapshotFilenameExample` | src/App.tsx:62-64 | the ISO time `2024-05-01T12:34:56.789Z` yields `detection_2024-05-01T12-34-56.789Z.png` |
| `Overlay.FaceLabel` | src/App.tsx:84 | the label of the detection at position i is `Face ` followed by the canonical numeral of i+1: digits only, reading as i+1, with no leading zero |
| `Overlay.BoxOps` | src/App.tsx:69-85 | N detections give exactly 2N ops. For each i, op 2i outlines box i and op 2i+1 is its label |
| `Overlay.RectsOfBoxOps` | src/App.tsx:69-79 | N detections give exactly N rectangles, in order. Rectangle i is at box i's top-left corner, with width br.x−tl.x and height br.y−tl.y, line width 2, red |
| `Overlay.LabelsOfBoxOps` | src/App.tsx:81-84 | N detections give exactly N labels, `Face 1` to `Face N`, in detector order |
| `Overlay.FaceLabelsDistinct` | src/App.tsx:84 | two labels are equal if and only if they belong to the same position |
| `Overlay.BoxOpsOnlyDraw` | src/App.tsx:69-85 | drawing the boxes issues only rectangles and labels |
| `Overlay.SingleBoxScenario` | src/App.tsx:73-84 | the box (10,10)-(50,50) is outlined 40×40 at (10,10) and labelled `Face 1` at (10,5) |
| `Detection.LiveOps` | src/App.tsx:54-85 | a ready cycle issues clear, then draw-frame. With detections it then issues the sound, the snapshot named from the timestamp, and exactly the box ops; without detections it issues nothing more |
| `Detection.LiveCycle` | src/App.tsx:44-93 | a cycle missing any of model, webcam, canvas, video or context issues no op and leaves the detected state alone. A ready cycle sets the detected state to the predictions and issues 2 + (2 if non-empty) + 2N ops. Re-arming equals the flag |
| `Detection.LiveCycleOrder` | src/App.tsx:54-86 | with detections: clear, then draw the frame, then the sound, then the snapshot. Every rectangle and label comes after the snapshot, and no clear, frame, sound or snapshot follows |
| `Detection.LiveCycleEmpty` | src/App.tsx:54-57 | an empty detection result yields only clear and draw-frame |
| `Detection.SideEffectsIffDetection` | src/App.tsx:57-64 | a cycle plays the sound or takes a snapshot if and only if it was ready and detected a face, and only at positions 2 and 3 |
| `Detection.LiveOpsDrawOnlyBoxes` | src/App.tsx:54-85 | the rectangles and labels of a live cycle are exactly those of its boxes |
| `Detection.LiveCycleRects` | src/App.tsx:69-79 | the live overlay strokes exactly N rectangles, in detector order, each at its box's corner with the box's width and height |
| `Detection.LiveCycleLabels` | src/App.tsx:81-84 | the live overlay labels its boxes `Face 1` to `Face N`, in order |
| `Detection.RearmDependsOnlyOnFlag` | src/App.tsx:90-92 | whether a cycle requests another frame depends only on the detecting flag, not on prerequisites, predictions, canvas or time |
| `Detection.DetectInImage` | src/App.tsx:150-176 | without the model nothing happens. With it, the detected state becomes the predictions. With a context, the ops are exactly the rectangle-and-label pairs of the predictions; without one, nothing is drawn |
| `Detection.HandleUpload` | src/App.tsx:126-148 | without a file, canvas or context nothing happens. Otherwise the canvas takes the image's size and the first op draws the image. Then, with the model, exactly the box ops follow and the detected state becomes the predictions; without the model nothing follows and the detected state is untouched |
| `Detection.UploadNeverClears` | src/App.tsx:126-176 | for every file, canvas, context, model and prediction list, an upload never clears, draws a video frame, plays the sound or takes a snapshot |
| `Detection.UploadMatchesLive` | src/App.tsx:157-173 | for every prediction list, after the image the upload draws exactly the box ops. When there are detections these are the live cycle's last ops. In every case the upload and a live cycle have the same rectangles and the same labels |
| `Detection.UploadWithoutModel` | src/App.tsx:137-151 | without the model, an upload only draws the image and resizes the canvas |
| `Controller.Toggle` | src/App.tsx:102-107 | a press negates the flag and schedules one cycle if and only if the flag was Idle |
| `Controller.ToggleTwice` | src/App.tsx:102-107 | start then stop returns to the start flag, having scheduled one cycle in all |
| `Controller.PressesCount` | src/App.tsx:102-107 | after n presses the flag has flipped n times. The presses scheduled ⌈n/2⌉ cycles from Idle and ⌊n/2⌋ from Detecting |
| `Controller.RunFlag` | src/App.tsx:44-107 | after any sequence of presses and frames, the flag is what that many presses leave it: frames never change it |
| `Controller.Step` | src/App.tsx:44-107 | a press toggles and adds the scheduled cycle to the pending ones. A frame with nothing pending does nothing. Otherwise one live cycle runs on the current flag, and its callback is replaced exactly when the flag is Detecting |
| `Controller.SingleCadence` | src/App.tsx:90-107 | if every start comes when no callback is pending, at most one cycle is ever pending |
| `Controller.RestartBeforeFrameDoublesLoop` | src/App.tsx:90-107 | in the corrected loop, start, stop, start before a frame leaves two pending callbacks that both keep re-arming |
| `Controller.StoppedCycleStillDraws` | src/App.tsx:44-92 | in the corrected loop, a cycle firing after stop still plays the sound and takes the snapshot, and then stops re-arming |
| `Controller.StoppedCycleStillDrawsAsWritten` | src/App.tsx:44-107 | as written, the one callback a start queued still draws, plays the sound and takes the snapshot after a stop, and leaves no callback queued |
| `Controller.DetectingLoopRuns` | src/App.tsx:44-93 | while Detecting with a pending callback, every frame runs exactly one cycle and the loop state is unchanged |
| `Controller.IdleLoopQuiet` | src/App.tsx:90-92 | Idle with nothing pending, frames issue no op |
| `Controller.StepAsWritten` | src/App.tsx:90-105 | as written, a press toggles and, from Idle, queues a callback holding the pre-press flag. A frame runs the oldest callback on its captured flag and re-queues it only if that flag was Detecting |
| `Controller.RunAsWrittenFlag` | src/App.tsx:90-105 | as written, the flag after a run is what its presses leave it |
| `Controller.AsWrittenRunNeverRearms` | src/App.tsx:90-105 | over any run as written from callbacks that all hold Idle, every callback still holds Idle and the queue never exceeds its start plus one per press: no cycle re-arms |
| `Controller.AsWrittenNeverRearms` | src/App.tsx:90-105 | as written, every pending callback holds the Idle flag, and each frame that runs one consumes it without re-arming |
| `Controller.RestartBeforeFrameAsWritten` | src/App.tsx:90-105 | as written, start, stop, start before a frame queues two callbacks holding Idle; the next two frames consume one each and leave nothing pending |
| `Controller.LoopStopsAfterOneCycleAsWritten` | src/App.tsx:90-105 | after one start, as written the second frame draws nothing. With the flag read at run time, both frames run a cycle |
| `Storage.Persist` | src/AdminPage.tsx:17-20 | loading what was written back gives the list |
| `Storage.Mount` | src/AdminPage.tsx:9-20 | on mount the list is the stored list if present, else empty, and storage then holds that list |
| `Storage.Commit` | src/AdminPage.tsx:17-20 | after a change, storage holds exactly the new list, rewritten whole |
| `Storage.RemountRoundTrip` | src/AdminPage.tsx:9-20 | a synced list is what a fresh mount reads back |
| `Storage.MountKeepsStored` | src/App.tsx:32-42 | mounting with a stored list leaves the stored value as it was |
| `Gallery.SaveFace` | src/App.tsx:109-124 | with a detection, a name and a canvas: exactly one `{name, imageUrl}` is appended at the end and the whole gallery is stored. The name is cleared, a success toast is shown and the image is downloaded as `detect-faces/<name>.jpg`. Without a detection or a name: nothing changes and the error toast is shown. Without a canvas: nothing changes and no toast is shown |
| `Gallery.SaveFaceGrowsIffAccepted` | src/App.tsx:109-124 | the gallery grows by one if and only if the save is accepted, stays the same size otherwise, and its earlier entries are kept |
| `Gallery.NoSaveAfterEmptyCycle` | src/App.tsx:50-114 | after a ready cycle that found no face, saving is refused and the gallery is unchanged |
| `Gallery.SaveAliceScenario` | src/App.tsx:109-119 | saving `Alice` with one detection grows the gallery from K to K+1 entries, ending in Alice's capture, and downloads `detect-faces/Alice.jpg` |
| `Gallery.AddCustomCamera` | src/App.tsx:178-184 | the prompt's answer is appended with a success toast if and only if it is non-null and non-empty. Otherwise nothing changes |
| `Gallery.AddCustomCameraIff` | src/App.tsx:178-184 | the camera list grows by one if and only if the answer is a non-empty string, and earlier cameras stay in place |
| `Admin.Open` | src/AdminPage.tsx:9-15 | opening the view shows the stored list (or an empty list) with an empty input, and storage holds that list |
| `Admin.AddCamera` | src/AdminPage.tsx:22-27 | a non-empty URL is appended at the end, stored, and the input is cleared. With an empty input, list, storage and input are unchanged |
| `Admin.KeepOthers` | src/AdminPage.tsx:30 | the index filter drops at most one element, and drops none when the index lies before the first position |
| `Admin.KeepOthersSpec` | src/AdminPage.tsx:30 | filtering out one position drops exactly the element there when the position exists, and nothing otherwise |
| `Admin.RemoveCamera` | src/AdminPage.tsx:29-32 | the filtered list replaces the old one and is stored, and the input is untouched. In range, the result is `cameras[..index] + cameras[index+1..]`, one shorter. Out of range, the list is unchanged |
| `Admin.RemoveInRange` | src/AdminPage.tsx:29-32 | removing position i yields `cameras[..i] + cameras[i+1..]`, of length one less. Earlier entries stay in place, later ones move up by one, and exactly one occurrence of the removed URL goes (as a multiset) |
| `Admin.RemoveOutOfRange` | src/AdminPage.tsx:30 | removing a position outside the list leaves it unchanged |
| `Admin.RemoveByPosition` | src/AdminPage.tsx:30 | removal is by position, not by value: an equal URL at another position survives |
| `Admin.SessionStaysSynced` | src/AdminPage.tsx:17-32 | after any sequence of typing, adds and removes, storage equals the current list |
| `Admin.ReopenShowsList` | src/AdminPage.tsx:9-32 | reopening the view after any session shows the list as it was left |

## Findings

| source | as written | input that shows it | evidently intended | confidence | as-written member | corrected member |
|---|---|---|---|---|---|---|
| src/App.tsx:90-105 | the cycle that `toggleDetection` schedules is the `detectFaces` of the render before the press. It reads the `isDetecting` captured then (false), so it never requests another frame | press Start, then two animation frames: the second frame runs no cycle although the flag is Detecting | each cycle reads the current flag and keeps re-arming while Detecting | medium (not executed) | `Controller.LoopStopsAfterOneCycleAsWritten` (with `Controller.StepAsWritten`, `Controller.AsWrittenNeverRearms`) | `Controller.Step` (with `Controller.DetectingLoopRuns`) |

## Left out

- LiveCycle: does not model a rejected detector call. If `estimateFaces` fails (src/App.tsx:51), `detectFaces` never reaches the re-arm at line 90, so the chain ends whatever the flag. The model's cycle always re-arms exactly when the flag is set. The same holds for `Detection.RearmDependsOnlyOnFlag` and `Controller.Step`.
- RearmDependsOnlyOnFlag: holds only for detector calls that return; see the line above.
- Step: a frame whose detector call fails is modelled as if the call returned, so the callback always re-queues while the flag is Detecting; see the `LiveCycle` line.
- Mount: models the state once mounting has settled. On mount, the write-back effect (src/AdminPage.tsx:17-20, src/App.tsx:39-42) first runs with the initial empty list. That briefly overwrites the key before the loaded list is committed and written again. The intermediate write is not modelled, and neither is a reload that would observe it.
- MountKeepsStored: describes the settled stored value only, for the same reason.

- The face detector (`tf.ready`, `blazeface.load`, `estimateFaces`) is a foreign call. Its predictions are an input, and model readiness is a boolean.
- The detector's fractional coordinates are taken as integers.
- The model-loaded toast and the `console.log` of the detection time are not modelled.
- Canvas pixels, `toDataURL`, audio playback, `FileReader` and image decoding, link-click downloads, toasts and `prompt` are browser I/O. They appear only as ops, notices, downloads and string or `Option` inputs. A failed decode is the same as no file.
- `requestAnimationFrame` timing, async/await suspension and React's batching of state updates are not modelled. One frame runs one pending callback.
- `Date`/`toISOString` is not modelled. The timestamp is an input string.
- JSON encoding and `localStorage` are not modelled: serialisation is the identity on the list, and an absent key is `None`. A stored value that fails to parse is not modelled.
- Camera selection (`selectedCamera`, the `<select>` options, `videoConstraints`), the routing link and all JSX/CSS rendering are UI. They are not modelled.
- Setting `canvas.width`/`height` on upload also clears the canvas in a browser. That is not modelled; only the new size is recorded.

=== FILE: admin.dfy ===
/** The administration view: a persisted list of camera URLs with an input
    field, an Add button and a Remove button per entry. */
module Admin {
  import opened Wrappers
  import opened Storage

  datatype AdminPage = AdminPage(cameras: Store<string>, input: string)

  /** Opening the view: the stored list (or none) and an empty input. */
  function Open(stored: Option<seq<string>>): (a: AdminPage)
    ensures a.input == "" && Synced(a.cameras) && a.cameras.list == Load(stored)
  {
    AdminPage(Mount(stored), "")
  }

  /** `addCamera`: a non-empty input is appended and the input is cleared;
      an empty input changes nothing. */
  function AddCamera(a: AdminPage): (r: AdminPage)
    ensures a.input != "" ==>
      && r.cameras.list == a.cameras.list + [a.input]
      && r.cameras.list[|a.cameras.list|] == a.input
      && Synced(r.cameras) && r.input == ""
    ensures a.input == "" ==> r == a
  {
    if a.input != "" then AdminPage(Commit(a.cameras.list + [a.input]), "")
    else a
  }

  /** `filter((_, i) => i !== index)` over `s`, whose first element has
      position `from`: every element whose position is not `index` is kept. */
  function KeepOthers<T>(s: seq<T>, index: int, from: int): (r: seq<T>)
    ensures index < from ==> r == s
    ensures |s| - 1 <= |r| <= |s|
    decreases |s|
  {
    if s == [] then []
    else (if from != index then [s[0]] else []) + KeepOthers(s[1..], index, from + 1)
  }

  /** The filter drops the element at `index` when there is one and nothing
      otherwise. */
  lemma {:induction false} KeepOthersSpec<T>(s: seq<T>, index: int, from: int)
    ensures from <= index < from + |s| ==> KeepOthers(s, index, from) == s[..index - from] + s[index - from + 1..]
    ensures !(from <= index < from + |s|) ==> KeepOthers(s, index, from) == s
    decreases |s|
  {
    if s != [] {
      var rest := KeepOthers(s[1..], index, from + 1);
      assert KeepOthers(s, index, from) == (if from != index then [s[0]] else []) + rest;
      KeepOthersSpec(s[1..], index, from + 1);
      if from == index {
        assert rest == s[1..];
        assert s[..0] + s[1..] == s[1..];
      } else if from < index < from + |s| {
        var k := index - from;
        assert rest == s[1..][..k - 1] + s[1..][k..];
        assert s[..k] == [s[0]] + s[1..][..k - 1];
        assert s[k + 1..] == s[1..][k..];
      } else {
        assert rest == s[1..];
        assert [s[0]] + s[1..] == s;
      }
    }
  }

  /** The camera list after removing position `index`. */
  function RemoveAt(cameras: seq<string>, index: int): seq<string>
  {
    KeepOthers(cameras, index, 0)
  }

  /** `removeCamera`: the filtered list always replaces the old one and is
      written back, even when nothing was dropped; the input is untouched. */
  function RemoveCamera(a: AdminPage, index: int): (r: AdminPage)
    ensures Synced(r.cameras) && r.input == a.input
    ensures 0 <= index < |a.cameras.list| ==>
      && r.cameras.list == a.cameras.list[..index] + a.cameras.list[index + 1..]
      && |r.cameras.list| == |a.cameras.list| - 1
    ensures !(0 <= index < |a.cameras.list|) ==> r.cameras.list == a.cameras.list
  {
    KeepOthersSpec(a.cameras.list, index, 0);
    AdminPage(Commit(RemoveAt(a.cameras.list, index)), a.input)
  }

  /** Removing an existing position leaves the list with that one position
      cut out: everything before it stays in place, everything after it
      moves up by one, and exactly one occurrence of the removed URL goes. */
  lemma RemoveInRange(cameras: seq<string>, index: int)
    requires 0 <= index < |cameras|
    ensures RemoveAt(cameras, index) == cameras[..index] + cameras[index + 1..]
    ensures |RemoveAt(cameras, index)| == |cameras| - 1
    ensures forall j :: 0 <= j < index ==> RemoveAt(cameras, index)[j] == cameras[j]
    ensures forall j :: index < j < |cameras| ==> RemoveAt(cameras, index)[j - 1] == cameras[j]
    ensures multiset(RemoveAt(cameras, index)) == multiset(cameras) - multiset{cameras[index]}
  {
    KeepOthersSpec(cameras, index, 0);
    assert cameras == cameras[..index] + [cameras[index]] + cameras[index + 1..];
  }

  /** Removing a position that does not exist changes nothing. */
  lemma RemoveOutOfRange(cameras: seq<string>, index: int)
    requires index < 0 || index >= |cameras|
    ensures RemoveAt(cameras, index) == cameras
  {
    KeepOthersSpec(cameras, index, 0);
  }

  /** Removal is by position, not by value: an equal URL at another position
      survives the removal. */
  lemma RemoveByPosition(cameras: seq<string>, index: int, other: int)
    requires 0 <= index < |cameras| && 0 <= other < |cameras| && other != index
    requires cameras[other] == cameras[index]
    ensures cameras[index] in RemoveAt(cameras, index)
  {
    RemoveInRange(cameras, index);
    if other < index {
      assert RemoveAt(cameras, index)[other] == cameras[other];
    } else {
      assert RemoveAt(cameras, index)[other - 1] == cameras[other];
    }
  }

  /** The user's actions on the view. */
  datatype Action = Type(text: string) | Add | Remove(index: int)

  function Apply(a: AdminPage, act: Action): AdminPage
  {
    match act
    case Type(text) => a.(input := text)
    case Add => AddCamera(a)
    case Remove(i) => RemoveCamera(a, i)
  }

  function Session(a: AdminPage, acts: seq<Action>): AdminPage
    decreases |acts|
  {
    if acts == [] then a else Session(Apply(a, acts[0]), acts[1..])
  }

  /** Every action keeps storage equal to the current list. */
  lemma {:induction false} SessionStaysSynced(a: AdminPage, acts: seq<Action>)
    requires Synced(a.cameras)
    ensures Synced(Session(a, acts).cameras)
    decreases |acts|
  {
    if acts != [] {
      SessionStaysSynced(Apply(a, acts[0]), acts[1..]);
    }
  }

  /** Reopening the view after any session shows the list as it was left. */
  lemma ReopenShowsList(stored: Option<seq<string>>, acts: seq<Action>)
    ensures var s := Session(Open(stored), acts);
      Open(s.cameras.stored).cameras.list == s.cameras.list
  {
    SessionStaysSynced(Open(stored), acts);
  }
}

=== FILE: controller.dfy ===
/** The start/stop state machine and the animation-frame loop it drives.
    A press of the Start/Stop button flips the flag and, only when going
    from Idle to Detecting, requests one animation frame; each frame runs one
    pending cycle, which requests the next frame when it reads the flag set. */
module Controller {
  import opened Overlay
  import opened Detection

  datatype Flag = Idle | Detecting

  /** The flag after one or more presses and the number of cycles they schedule. */
  datatype ToggleOutcome = ToggleOutcome(flag: Flag, scheduled: nat)

  /** `toggleDetection`: the flag is negated; a cycle is scheduled on the
      Idle to Detecting transition and on no other. */
  function Toggle(f: Flag): (r: ToggleOutcome)
    ensures r.flag != f
    ensures r.scheduled <= 1
    ensures r.scheduled == 1 <==> f == Idle
  {
    match f
    case Idle => ToggleOutcome(Detecting, 1)
    case Detecting => ToggleOutcome(Idle, 0)
  }

  /** Start then stop comes back to the start state having scheduled one cycle. */
  lemma ToggleTwice(f: Flag)
    ensures Toggle(Toggle(f).flag).flag == f
    ensures Toggle(f).scheduled + Toggle(Toggle(f).flag).scheduled == 1
  {
  }

  /** The flag after `n` presses and the cycles they scheduled in all. */
  function Presses(f: Flag, n: nat): ToggleOutcome
    decreases n
  {
    if n == 0 then ToggleOutcome(f, 0)
    else
      var t := Toggle(f);
      var rest := Presses(t.flag, n - 1);
      ToggleOutcome(rest.flag, t.scheduled + rest.scheduled)
  }

  /** After `n` presses the flag has flipped `n` times, and one cycle was
      scheduled per press that found the loop Idle: half of them, rounded
      up when the first press was a start. */
  lemma {:induction false} PressesCount(f: Flag, n: nat)
    ensures Presses(f, n).flag == (if n % 2 == 0 then f else Toggle(f).flag)
    ensures Presses(f, n).scheduled == (if f == Idle then (n + 1) / 2 else n / 2)
    decreases n
  {
    if n > 0 {
      PressesCount(Toggle(f).flag, n - 1);
      assert (n - 1) % 2 == 0 <==> n % 2 != 0;
      if f == Idle {
        assert (n + 1) / 2 == 1 + (n - 1) / 2;
      } else {
        assert n / 2 == 0 + n / 2;
      }
    }
  }

  /** The loop: the flag and the number of animation-frame callbacks
      requested and not yet run. */
  datatype Loop = Loop(flag: Flag, pending: nat)

  /** A press of the button, or an animation frame that runs one pending
      callback with the frame's prerequisites, canvas, predictions and time. */
  datatype Event =
    | Press
    | Frame(p: Prereqs, c: Canvas, preds: seq<Box>, ts: string)

  datatype StepOutcome = StepOutcome(loop: Loop, ops: seq<Op>)

  /** One event. A frame with nothing pending does nothing; otherwise one
      callback runs a live cycle that reads the current flag, and its
      request for another frame replaces it. There is no check that the loop
      is still running before the cycle draws. */
  function Step(l: Loop, e: Event): (r: StepOutcome)
    ensures e.Press? ==> r.ops == [] && r.loop.flag == Toggle(l.flag).flag
    ensures e.Press? ==> r.loop.pending == l.pending + (if l.flag == Idle then 1 else 0)
    ensures e.Frame? && l.pending == 0 ==> r == StepOutcome(l, [])
    ensures e.Frame? && l.pending > 0 ==>
      && r.loop.flag == l.flag
      && r.loop.pending == (if l.flag == Detecting then l.pending else l.pending - 1)
      && r.ops == LiveCycle(e.p, e.c, l.flag == Detecting, e.preds, e.ts).ops
  {
    match e
    case Press =>
      var t := Toggle(l.flag);
      StepOutcome(Loop(t.flag, l.pending + t.scheduled), [])
    case Frame(p, c, preds, ts) =>
      if l.pending == 0 then StepOutcome(l, [])
      else
        var out := LiveCycle(p, c, l.flag == Detecting, preds, ts);
        StepOutcome(Loop(l.flag, l.pending - 1 + (if out.rearm then 1 else 0)), out.ops)
  }

  /** The number of presses among `es`. */
  function PressCount(es: seq<Event>): nat
    decreases |es|
  {
    if es == [] then 0 else (if es[0].Press? then 1 else 0) + PressCount(es[1..])
  }

  /** A sequence of events from `l`: the final loop and every op issued. */
  function Run(l: Loop, es: seq<Event>): StepOutcome
    decreases |es|
  {
    if es == [] then StepOutcome(l, [])
    else
      var s := Step(l, es[0]);
      var rest := Run(s.loop, es[1..]);
      StepOutcome(rest.loop, s.ops + rest.ops)
  }

  /** Frames never touch the flag: after a run it is what the presses leave it. */
  lemma {:induction false} RunFlag(l: Loop, es: seq<Event>)
    ensures Run(l, es).loop.flag == Presses(l.flag, PressCount(es)).flag
    decreases |es|
  {
    if es != [] {
      var s := Step(l, es[0]);
      RunFlag(s.loop, es[1..]);
      if es[0].Press? {
        assert PressCount(es) == 1 + PressCount(es[1..]);
        assert s.loop.flag == Toggle(l.flag).flag;
      } else {
        assert PressCount(es) == PressCount(es[1..]);
        assert s.loop.flag == l.flag;
      }
    }
  }

  /** Every start in `es` finds no callback pending. */
  predicate StartsWhenQuiet(l: Loop, es: seq<Event>)
    decreases |es|
  {
    es == [] ||
    (&& !(es[0].Press? && l.flag == Idle && l.pending > 0)
     && StartsWhenQuiet(Step(l, es[0]).loop, es[1..]))
  }

  /** Single-cycle cadence: as long as every start comes after the previous
      run's last callback has fired, at most one cycle is ever pending. */
  lemma {:induction false} SingleCadence(l: Loop, es: seq<Event>)
    requires l.pending <= 1
    requires StartsWhenQuiet(l, es)
    ensures Run(l, es).loop.pending <= 1
    decreases |es|
  {
    if es != [] {
      SingleCadence(Step(l, es[0]).loop, es[1..]);
    }
  }

  /** In the corrected loop, stopping and starting again before the pending
      frame has fired leaves two callbacks pending, and both keep re-arming:
      two cycle chains run side by side from then on. */
  lemma RestartBeforeFrameDoublesLoop(e: Event)
    requires e.Frame?
    ensures Run(Loop(Idle, 0), [Press, Press, Press]).loop == Loop(Detecting, 2)
    ensures Step(Loop(Detecting, 2), e).loop == Loop(Detecting, 2)
  {
  }

  /** A cycle that fires after the loop was stopped still draws, plays the
      sound and takes the snapshot; it only stops asking for more frames. */
  lemma StoppedCycleStillDraws(p: Prereqs, c: Canvas, preds: seq<Box>, ts: string)
    requires Ready(p) && |preds| > 0
    ensures var r := Step(Loop(Idle, 1), Frame(p, c, preds, ts));
      && r.loop == Loop(Idle, 0)
      && PlaySound in r.ops
      && Snapshot(Filenames.SnapshotFilename(ts)) in r.ops
  {
  }

  /** As written the same holds: the one callback the start queued captured
      Idle, so the frame consumes it, draws, sounds and snapshots, and requests
      no further frame. */
  lemma StoppedCycleStillDrawsAsWritten(p: Prereqs, c: Canvas, preds: seq<Box>, ts: string)
    requires Ready(p) && |preds| > 0
    ensures var r := StepAsWritten(StaleLoop(Idle, [Idle]), Frame(p, c, preds, ts));
      && r.loop == StaleLoop(Idle, [])
      && PlaySound in r.ops
      && Snapshot(Filenames.SnapshotFilename(ts)) in r.ops
  {
  }

  predicate AllFrames(es: seq<Event>) {
    forall j :: 0 <= j < |es| ==> es[j].Frame?
  }

  /** The ops of one live cycle per frame, each reading the flag set. */
  function DetectingOps(es: seq<Event>): seq<Op>
    requires AllFrames(es)
  {
    if es == [] then []
    else LiveCycle(es[0].p, es[0].c, true, es[0].preds, es[0].ts).ops + DetectingOps(es[1..])
  }

  /** While Detecting with a callback pending, every frame runs exactly one
      cycle and the loop keeps its shape: the loop runs for as long as the
      flag stays set. */
  lemma {:induction false} DetectingLoopRuns(l: Loop, es: seq<Event>)
    requires l.flag == Detecting && l.pending > 0
    requires AllFrames(es)
    ensures Run(l, es) == StepOutcome(l, DetectingOps(es))
    decreases |es|
  {
    if es != [] {
      assert Step(l, es[0]).loop == l;
      DetectingLoopRuns(l, es[1..]);
    }
  }

  /** Idle with nothing pending, frames do nothing at all. */
  lemma {:induction false} IdleLoopQuiet(es: seq<Event>)
    requires AllFrames(es)
    ensures Run(Loop(Idle, 0), es) == StepOutcome(Loop(Idle, 0), [])
    decreases |es|
  {
    if es != [] {
      IdleLoopQuiet(es[1..]);
    }
  }

  // ---------------------------------------------------------------------
  // The loop as written: each callback is the cycle function of the render
  // that created it, so it reads the flag captured at that render; the cycle
  // a start schedules was created before the flag flipped, and so were the
  // callbacks it requests for itself.

  /** The loop as written: the flag, and the captured flag of each pending callback. */
  datatype StaleLoop = StaleLoop(flag: Flag, pending: seq<Flag>)

  datatype StaleOutcome = StaleOutcome(loop: StaleLoop, ops: seq<Op>)

  /** One event as written. A press toggles and, from Idle, queues a
      callback that captured Idle. A frame runs the oldest callback, which
      reads its captured flag and re-queues itself only if that flag was
      Detecting. */
  function StepAsWritten(l: StaleLoop, e: Event): (r: StaleOutcome)
    ensures e.Press? ==> r.ops == [] && r.loop.flag == Toggle(l.flag).flag
    ensures e.Press? ==> r.loop.pending == l.pending + (if l.flag == Idle then [Idle] else [])
    ensures e.Frame? && l.pending == [] ==> r == StaleOutcome(l, [])
    ensures e.Frame? && l.pending != [] ==>
      && r.loop.flag == l.flag
      && r.loop.pending == l.pending[1..] + (if l.pending[0] == Detecting then [Detecting] else [])
      && r.ops == LiveCycle(e.p, e.c, l.pending[0] == Detecting, e.preds, e.ts).ops
  {
    match e
    case Press =>
      var t := Toggle(l.flag);
      StaleOutcome(StaleLoop(t.flag, l.pending + (if t.scheduled == 1 then [l.flag] else [])), [])
    case Frame(p, c, preds, ts) =>
      if l.pending == [] then StaleOutcome(l, [])
      else
        var seen := l.pending[0];
        var out := LiveCycle(p, c, seen == Detecting, preds, ts);
        StaleOutcome(StaleLoop(l.flag, l.pending[1..] + (if out.rearm then [seen] else [])), out.ops)
  }

  function RunAsWritten(l: StaleLoop, es: seq<Event>): StaleOutcome
    decreases |es|
  {
    if es == [] then StaleOutcome(l, [])
    else
      var s := StepAsWritten(l, es[0]);
      var rest := RunAsWritten(s.loop, es[1..]);
      StaleOutcome(rest.loop, s.ops + rest.ops)
  }

  /** As written, every callback ever requested captured Idle and none of
      them re-arms: each frame that runs a cycle consumes a callback for good. */
  lemma AsWrittenNeverRearms(l: StaleLoop, e: Event)
    requires forall j :: 0 <= j < |l.pending| ==> l.pending[j] == Idle
    ensures var r := StepAsWritten(l, e).loop;
      && (forall j :: 0 <= j < |r.pending| ==> r.pending[j] == Idle)
      && (e.Frame? && |l.pending| > 0 ==> |r.pending| == |l.pending| - 1)
  {
  }

  /** As written too, the flag after a run is what the presses leave it. */
  lemma {:induction false} RunAsWrittenFlag(l: StaleLoop, es: seq<Event>)
    ensures RunAsWritten(l, es).loop.flag == Presses(l.flag, PressCount(es)).flag
    decreases |es|
  {
    if es != [] {
      var s := StepAsWritten(l, es[0]);
      RunAsWrittenFlag(s.loop, es[1..]);
      if es[0].Press? {
        assert PressCount(es) == 1 + PressCount(es[1..]);
        assert s.loop.flag == Toggle(l.flag).flag;
      } else {
        assert PressCount(es) == PressCount(es[1..]);
        assert s.loop.flag == l.flag;
      }
    }
  }

  predicate AllIdle(pending: seq<Flag>) {
    forall j :: 0 <= j < |pending| ==> pending[j] == Idle
  }

  /** Over any run as written, every pending callback holds Idle and the
      queue never holds more callbacks than it started with plus one per
      press: no cycle ever re-arms, so each start yields at most one cycle. */
  lemma {:induction false} AsWrittenRunNeverRearms(l: StaleLoop, es: seq<Event>)
    requires AllIdle(l.pending)
    ensures AllIdle(RunAsWritten(l, es).loop.pending)
    ensures |RunAsWritten(l, es).loop.pending| <= |l.pending| + PressCount(es)
    decreases |es|
  {
    if es != [] {
      AsWrittenNeverRearms(l, es[0]);
      AsWrittenRunNeverRearms(StepAsWritten(l, es[0]).loop, es[1..]);
    }
  }

  /** As written, the same start, stop, start before a frame queues two
      callbacks that both captured Idle; the next two frames each run one
      cycle and consume one, and nothing is left pending. */
  lemma RestartBeforeFrameAsWritten(e1: Event, e2: Event)
    requires e1.Frame? && e2.Frame?
    ensures RunAsWritten(StaleLoop(Idle, []), [Press, Press, Press]).loop == StaleLoop(Detecting, [Idle, Idle])
    ensures StepAsWritten(StaleLoop(Detecting, [Idle, Idle]), e1).loop == StaleLoop(Detecting, [Idle])
    ensures StepAsWritten(StaleLoop(Detecting, [Idle]), e2).loop == StaleLoop(Detecting, [])
  {
  }

  /** As written, after one start the second frame draws nothing although
      the flag says Detecting; with the flag read when the cycle runs, both
      frames run a cycle. */
  lemma LoopStopsAfterOneCycleAsWritten(p: Prereqs, c: Canvas, ts: string)
    requires Ready(p)
    ensures var es := [Press, Frame(p, c, [], ts), Frame(p, c, [], ts)];
      && RunAsWritten(StaleLoop(Idle, []), es).loop == StaleLoop(Detecting, [])
      && |RunAsWritten(StaleLoop(Idle, []), es).ops| == 2
      && Run(Loop(Idle, 0), es).loop == Loop(Detecting, 1)
      && |Run(Loop(Idle, 0), es).ops| == 4
  {
    var f := Frame(p, c, [], ts);
    var es := [Press, f, f];
    assert es[1..] == [f, f];
    assert es[1..][1..] == [f];
    assert es[1..][1..][1..] == [];
    var cycle := LiveCycle(p, c, true, [], ts).ops;
    LiveCycleEmpty(p, c, true, ts);
    LiveCycleEmpty(p, c, false, ts);

    var w0 := StaleLoop(Idle, []);
    var w1 := StaleLoop(Detecting, [Idle]);
    var w2 := StaleLoop(Detecting, []);
    assert StepAsWritten(w0, Press) == StaleOutcome(w1, []);
    assert StepAsWritten(w1, f) == StaleOutcome(w2, cycle);
    assert StepAsWritten(w2, f) == StaleOutcome(w2, []);
    assert RunAsWritten(w2, [f]) == StaleOutcome(w2, []);
    assert RunAsWritten(w1, [f, f]) == StaleOutcome(w2, cycle);
    assert RunAsWritten(w0, es) == StaleOutcome(w2, cycle);

    var l0 := Loop(Idle, 0);
    var l1 := Loop(Detecting, 1);
    assert Step(l0, Press) == StepOutcome(l1, []);
    assert Step(l1, f) == StepOutcome(l1, cycle);
    assert Run(l1, [f]) == StepOutcome(l1, cycle);
    assert Run(l1, [f, f]) == StepOutcome(l1, cycle + cycle);
    assert Run(l0, es) == StepOutcome(l1, cycle + cycle);
  }
}

=== FILE: decimal.dfy ===
/** Decimal rendering of natural numbers, as a JavaScript template literal
    renders a non-negative integer (`${index + 1}`), with its inverse. */
module Decimal {

  predicate IsDigit(c: char) {
    '0' <= c <= '9'
  }

  predicate AllDigits(s: string) {
    forall i :: 0 <= i < |s| ==> IsDigit(s[i])
  }

  function DigitValue(c: char): (d: nat)
    requires IsDigit(c)
    ensures d < 10
  {
    (c as int) - ('0' as int)
  }

  function DigitChar(d: nat): (c: char)
    requires d < 10
    ensures IsDigit(c) && DigitValue(c) == d
  {
    (('0' as int) + d) as char
  }

  /** The shortest decimal numeral of `n`: non-empty, digits only, and
      without a leading zero unless `n` is zero itself. */
  function NatToString(n: nat): (s: string)
    ensures |s| > 0 && AllDigits(s)
    ensures n == 0 <==> s == "0"
    ensures s[0] != '0' || |s| == 1
    decreases n
  {
    if n < 10 then [DigitChar(n)] else NatToString(n / 10) + [DigitChar(n % 10)]
  }

  /** The value denoted by a decimal numeral (most significant digit first). */
  function ParseDecimal(s: string): nat
    requires AllDigits(s)
  {
    if s == [] then 0 else 10 * ParseDecimal(s[..|s| - 1]) + DigitValue(s[|s| - 1])
  }

  /** Reading the numeral back gives the number: the rendering loses nothing. */
  lemma {:induction false} ParseNatToString(n: nat)
    ensures ParseDecimal(NatToString(n)) == n
    decreases n
  {
    if n >= 10 {
      var s := NatToString(n);
      assert s[..|s| - 1] == NatToString(n / 10);
      ParseNatToString(n / 10);
    }
  }

  /** Distinct numbers are rendered as distinct numerals. */
  lemma NatToStringInjective(a: nat, b: nat)
    ensures NatToString(a) == NatToString(b) ==> a == b
  {
    ParseNatToString(a);
    ParseNatToString(b);
  }
}

=== FILE: detection.dfy ===
/** One detection cycle of the live loop, and the one-shot pipeline run on
    an uploaded image. The detector is outside the model: its predictions
    for the frame are an input. */
module Detection {
  import opened Wrappers
  import opened Overlay
  import opened Filenames

  /** What must be present before a live cycle can do anything: the loaded
      model, the webcam component, the canvas, the webcam's video element
      and the canvas's 2D drawing context. */
  datatype Prereqs = Prereqs(model: bool, webcam: bool, canvas: bool, video: bool, context: bool)

  predicate Ready(p: Prereqs) {
    p.model && p.webcam && p.canvas && p.video && p.context
  }

  /** The overlay canvas's current size (640 by 480 as mounted). */
  datatype Canvas = Canvas(width: int, height: int)

  /** What a cycle leaves behind: the ops it issued, the new detected-faces
      state (`None` when the cycle did not set it), and whether it asked for
      another animation frame. */
  datatype CycleOutcome = CycleOutcome(ops: seq<Op>, detected: Option<seq<Box>>, rearm: bool)

  /** The ops of a live cycle that ran: clear, draw the frame, then, only when
      something was detected, the sound, the snapshot and the boxes. */
  function LiveOps(c: Canvas, preds: seq<Box>, ts: string): (ops: seq<Op>)
    ensures |ops| == 2 + (if |preds| > 0 then 2 else 0) + 2 * |preds|
    ensures ops[0] == ClearSurface(c.width, c.height) && ops[1] == DrawFrame(c.width, c.height)
    ensures |preds| > 0 ==>
      && ops[2] == PlaySound
      && ops[3] == Snapshot(SnapshotFilename(ts))
      && ops[4..] == BoxOps(preds)
  {
    [ClearSurface(c.width, c.height), DrawFrame(c.width, c.height)]
      + (if |preds| > 0 then [PlaySound, Snapshot(SnapshotFilename(ts))] + BoxOps(preds) else [])
  }

  /** One live cycle. `detecting` is the flag the cycle reads, `preds` what
      the detector returns for the current frame and `ts` the ISO timestamp
      of the detection instant. A cycle whose prerequisites are missing does
      nothing; either way another cycle is requested exactly when the flag
      is set. */
  function LiveCycle(p: Prereqs, c: Canvas, detecting: bool, preds: seq<Box>, ts: string): (r: CycleOutcome)
    ensures r.rearm == detecting
    ensures !Ready(p) ==> r.ops == [] && r.detected == None
    ensures Ready(p) ==> r.detected == Some(preds) && |r.ops| == 2 + (if |preds| > 0 then 2 else 0) + 2 * |preds|
  {
    if Ready(p) then CycleOutcome(LiveOps(c, preds, ts), Some(preds), detecting)
    else CycleOutcome([], None, detecting)
  }

  /** What detection on an uploaded image leaves behind: the ops and the new
      detected-faces state (`None` when not set). */
  datatype DetectOutcome = DetectOutcome(ops: seq<Op>, detected: Option<seq<Box>>)

  /** `detectFacesInImage`: with the model loaded, the detected state is
      replaced and the boxes are drawn over what the canvas already shows;
      without the model nothing happens. */
  function DetectInImage(model: bool, context: bool, preds: seq<Box>): (r: DetectOutcome)
    ensures !model ==> r == DetectOutcome([], None)
    ensures model ==> r.detected == Some(preds)
    ensures model && context ==> r.ops == BoxOps(preds) && |r.ops| == 2 * |preds|
    ensures !context ==> r.ops == []
  {
    if !model then DetectOutcome([], None)
    else if context then DetectOutcome(BoxOps(preds), Some(preds))
    else DetectOutcome([], Some(preds))
  }

  /** A decoded upload: the image's natural size. */
  datatype Image = Image(width: int, height: int)

  /** What an upload leaves behind: the ops, the canvas size afterwards and
      the new detected-faces state (`None` when not set). */
  datatype UploadOutcome = UploadOutcome(ops: seq<Op>, canvas: Canvas, detected: Option<seq<Box>>)

  /** `handleFileUpload` once the file has been read and decoded (`None` when
      no file was chosen): the canvas takes the image's size, the image is
      drawn at the origin and the detector runs on the canvas. */
  function HandleUpload(file: Option<Image>, canvasPresent: bool, context: bool, c: Canvas,
                        model: bool, preds: seq<Box>): (r: UploadOutcome)
    ensures file.None? || !canvasPresent || !context ==> r == UploadOutcome([], c, None)
    ensures file.Some? && canvasPresent && context ==>
      && r.canvas == Canvas(file.value.width, file.value.height)
      && |r.ops| > 0 && r.ops[0] == DrawImage(file.value.width, file.value.height)
      && r.ops[1..] == (if model then BoxOps(preds) else [])
      && r.detected == (if model then Some(preds) else None)
  {
    if file.Some? && canvasPresent && context then
      var img := file.value;
      var found := DetectInImage(model, context, preds);
      UploadOutcome([DrawImage(img.width, img.height)] + found.ops, Canvas(img.width, img.height), found.detected)
    else UploadOutcome([], c, None)
  }

  /** The ops a detection triggers besides drawing: the sound and the snapshot. */
  predicate IsSideEffect(op: Op) {
    op.PlaySound? || op.Snapshot?
  }

  /** Live cycle order: the canvas is cleared, then the frame is drawn, then,
      when something was detected, the sound plays and the snapshot is
      taken, and only after that are boxes drawn. Hence the snapshot never
      shows this cycle's boxes. */
  lemma LiveCycleOrder(p: Prereqs, c: Canvas, detecting: bool, preds: seq<Box>, ts: string)
    requires Ready(p) && |preds| > 0
    ensures var ops := LiveCycle(p, c, detecting, preds, ts).ops;
      && ops[0] == ClearSurface(c.width, c.height)
      && ops[1] == DrawFrame(c.width, c.height)
      && ops[2] == PlaySound
      && ops[3] == Snapshot(SnapshotFilename(ts))
      && (forall j :: 0 <= j < |ops| && ops[j].StrokeRect? ==> 3 < j)
      && (forall j :: 0 <= j < |ops| && ops[j].FillText? ==> 3 < j)
      && (forall j :: 3 < j < |ops| ==> !IsSideEffect(ops[j]) && !ops[j].ClearSurface? && !ops[j].DrawFrame?)
  {
    var ops := LiveCycle(p, c, detecting, preds, ts).ops;
    BoxOpsOnlyDraw(preds);
    assert ops[4..] == BoxOps(preds);
    forall j | 3 < j < |ops|
      ensures ops[j].StrokeRect? || ops[j].FillText?
    {
      assert ops[j] == ops[4..][j - 4];
    }
  }

  /** A frame with no detection is cleared and redrawn and nothing else:
      no sound, no snapshot, no rectangle. */
  lemma LiveCycleEmpty(p: Prereqs, c: Canvas, detecting: bool, ts: string)
    requires Ready(p)
    ensures LiveCycle(p, c, detecting, [], ts).ops == [ClearSurface(c.width, c.height), DrawFrame(c.width, c.height)]
  {
  }

  /** A sound and a snapshot are issued by a cycle exactly when it ran and
      detected at least one face, and then once each. */
  lemma SideEffectsIffDetection(p: Prereqs, c: Canvas, detecting: bool, preds: seq<Box>, ts: string)
    ensures var ops := LiveCycle(p, c, detecting, preds, ts).ops;
      (exists j :: 0 <= j < |ops| && IsSideEffect(ops[j])) <==> Ready(p) && |preds| > 0
    ensures var ops := LiveCycle(p, c, detecting, preds, ts).ops;
      forall j :: 0 <= j < |ops| && IsSideEffect(ops[j]) ==> j == 2 || j == 3
  {
    var ops := LiveCycle(p, c, detecting, preds, ts).ops;
    if Ready(p) && |preds| > 0 {
      LiveCycleOrder(p, c, detecting, preds, ts);
      assert IsSideEffect(ops[2]);
    } else if Ready(p) {
      LiveCycleEmpty(p, c, detecting, ts);
    }
  }

  /** The ops before the boxes draw neither rectangles nor labels, so the
      rectangles and labels of a live cycle are exactly those of its boxes. */
  lemma LiveOpsDrawOnlyBoxes(c: Canvas, preds: seq<Box>, ts: string)
    ensures Rects(LiveOps(c, preds, ts)) == Rects(BoxOps(preds))
    ensures Labels(LiveOps(c, preds, ts)) == Labels(BoxOps(preds))
  {
    var pre := if |preds| > 0
      then [ClearSurface(c.width, c.height), DrawFrame(c.width, c.height), PlaySound, Snapshot(SnapshotFilename(ts))]
      else [ClearSurface(c.width, c.height), DrawFrame(c.width, c.height)];
    assert LiveOps(c, preds, ts) == pre + BoxOps(preds);
    NoRectsNoLabels(pre);
    RectsAppend(pre, BoxOps(preds));
    LabelsAppend(pre, BoxOps(preds));
  }

  lemma NoRectsNoLabels(ops: seq<Op>)
    requires forall j :: 0 <= j < |ops| ==> !ops[j].StrokeRect? && !ops[j].FillText?
    ensures Rects(ops) == [] && Labels(ops) == []
  {
  }

  /** The live overlay strokes exactly one rectangle per detection, in the
      detector's order, at the box's corner with the box's width and height. */
  lemma LiveCycleRects(p: Prereqs, c: Canvas, detecting: bool, preds: seq<Box>, ts: string)
    requires Ready(p)
    ensures var rs := Rects(LiveCycle(p, c, detecting, preds, ts).ops);
      && |rs| == |preds|
      && forall i :: 0 <= i < |preds| ==>
        var tl, br := preds[i].topLeft, preds[i].bottomRight;
        rs[i] == StrokeRect(tl.x, tl.y, br.x - tl.x, br.y - tl.y, 2, "red")
  {
    LiveOpsDrawOnlyBoxes(c, preds, ts);
    RectsOfBoxOps(preds);
  }

  /** The live overlay labels its boxes `Face 1` to `Face N` in order. */
  lemma LiveCycleLabels(p: Prereqs, c: Canvas, detecting: bool, preds: seq<Box>, ts: string)
    requires Ready(p)
    ensures var ls := Labels(LiveCycle(p, c, detecting, preds, ts).ops);
      |ls| == |preds| && forall i :: 0 <= i < |preds| ==> ls[i] == FaceLabel(i)
  {
    LiveOpsDrawOnlyBoxes(c, preds, ts);
    LabelsOfBoxOps(preds);
  }

  /** Whether another cycle is requested depends on the flag alone: not on
      the prerequisites, the predictions, the canvas or the time. */
  lemma RearmDependsOnlyOnFlag(p1: Prereqs, p2: Prereqs, c1: Canvas, c2: Canvas, detecting: bool,
                               preds1: seq<Box>, preds2: seq<Box>, ts1: string, ts2: string)
    ensures LiveCycle(p1, c1, detecting, preds1, ts1).rearm == LiveCycle(p2, c2, detecting, preds2, ts2).rearm
    ensures LiveCycle(p1, c1, detecting, preds1, ts1).rearm == detecting
  {
  }

  /** Whatever the file, canvas, model and predictions, an upload never
      clears the canvas, draws a video frame, plays the sound or takes a
      snapshot. */
  lemma UploadNeverClears(file: Option<Image>, canvasPresent: bool, context: bool, c: Canvas,
                          model: bool, preds: seq<Box>)
    ensures var up := HandleUpload(file, canvasPresent, context, c, model, preds).ops;
      forall j :: 0 <= j < |up| ==> !IsSideEffect(up[j]) && !up[j].ClearSurface? && !up[j].DrawFrame?
  {
    var up := HandleUpload(file, canvasPresent, context, c, model, preds).ops;
    BoxOpsOnlyDraw(preds);
    forall j | 0 <= j < |up|
      ensures !IsSideEffect(up[j]) && !up[j].ClearSurface? && !up[j].DrawFrame?
    {
      if j > 0 {
        assert up[j] == up[1..][j - 1];
        assert up[j] in BoxOps(preds);
      }
    }
  }

  /** With the model, the upload draws the very same boxes and labels as a
      live cycle on the same predictions: after the image come exactly the
      box ops, which are the live cycle's last ops when there is a detection,
      and the two traces have the same rectangles and labels in every case. */
  lemma UploadMatchesLive(img: Image, c: Canvas, preds: seq<Box>, p: Prereqs, c2: Canvas, detecting: bool, ts: string)
    requires Ready(p)
    ensures var up := HandleUpload(Some(img), true, true, c, true, preds).ops;
      var live := LiveCycle(p, c2, detecting, preds, ts).ops;
      && up[1..] == BoxOps(preds)
      && (|preds| > 0 ==> up[1..] == live[4..])
      && Rects(up) == Rects(live)
      && Labels(up) == Labels(live)
  {
    var up := HandleUpload(Some(img), true, true, c, true, preds).ops;
    var live := LiveCycle(p, c2, detecting, preds, ts).ops;
    UploadOps(img, c, preds);
    assert live == LiveOps(c2, preds, ts);
    UploadMarks(img, preds);
    LiveOpsDrawOnlyBoxes(c2, preds, ts);
  }

  lemma UploadMarks(img: Image, preds: seq<Box>)
    ensures Rects([DrawImage(img.width, img.height)] + BoxOps(preds)) == Rects(BoxOps(preds))
    ensures Labels([DrawImage(img.width, img.height)] + BoxOps(preds)) == Labels(BoxOps(preds))
  {
    var image := [DrawImage(img.width, img.height)];
    NoRectsNoLabels(image);
    RectsAppend(image, BoxOps(preds));
    LabelsAppend(image, BoxOps(preds));
  }

  lemma UploadOps(img: Image, c: Canvas, preds: seq<Box>)
    ensures HandleUpload(Some(img), true, true, c, true, preds).ops == [DrawImage(img.width, img.height)] + BoxOps(preds)
  {
  }

  /** Without the model an upload only shows the image: no box is drawn and
      the detected-faces state is left alone. */
  lemma UploadWithoutModel(img: Image, c: Canvas, preds: seq<Box>)
    ensures HandleUpload(Some(img), true, true, c, false, preds)
         == UploadOutcome([DrawImage(img.width, img.height)], Canvas(img.width, img.height), None)
  {
  }
}

=== FILE: filenames.dfy ===
/** File names of the images the application downloads: the automatic
    detection snapshot and the explicitly saved face. */
module Filenames {

  const SnapshotPrefix: string := "detection_"
  const SnapshotSuffix: string := ".png"
  const FaceFolder: string := "detect-faces/"
  const FaceSuffix: string := ".jpg"

  /** `c` with a colon turned into a dash; every other character kept. */
  function DashForColon(c: char): char {
    if c == ':' then '-' else c
  }

  /** A global `replace(/:/g, '-')`: position for position, colons become
      dashes and nothing else changes, so no colon survives. */
  function ReplaceColons(ts: string): (r: string)
    ensures |r| == |ts|
    ensures forall i :: 0 <= i < |ts| ==> r[i] == DashForColon(ts[i])
    ensures forall i :: 0 <= i < |ts| && ts[i] != ':' ==> r[i] == ts[i]
    ensures ':' !in r
  {
    if ts == [] then [] else ReplaceColons(ts[..|ts| - 1]) + [DashForColon(ts[|ts| - 1])]
  }

  /** The name of the snapshot taken when a cycle detects a face,
      built from the ISO timestamp of the detection instant. */
  function SnapshotFilename(ts: string): (f: string)
    ensures |f| == |SnapshotPrefix| + |ts| + |SnapshotSuffix|
    ensures f[..|SnapshotPrefix|] == SnapshotPrefix
    ensures f[|f| - |SnapshotSuffix|..] == SnapshotSuffix
    ensures ':' !in f
    ensures forall i :: 0 <= i < |ts| && ts[i] != ':' ==> f[|SnapshotPrefix| + i] == ts[i]
    ensures forall i :: 0 <= i < |ts| && ts[i] == ':' ==> f[|SnapshotPrefix| + i] == '-'
  {
    SnapshotPrefix + ReplaceColons(ts) + SnapshotSuffix
  }

  /** The download name of an explicitly saved face. */
  function FaceFilename(name: string): (f: string)
    ensures |f| == |FaceFolder| + |name| + |FaceSuffix|
    ensures f[..|FaceFolder|] == FaceFolder
    ensures f[|FaceFolder|..|FaceFolder| + |name|] == name
    ensures f[|f| - |FaceSuffix|..] == FaceSuffix
  {
    FaceFolder + name + FaceSuffix
  }

  /** Replacing colons a second time changes nothing. */
  lemma ReplaceColonsIdempotent(ts: string)
    ensures ReplaceColons(ReplaceColons(ts)) == ReplaceColons(ts)
  {
  }

  /** Two detection instants produce the same snapshot name exactly when
      their timestamps agree once colons are read as dashes; in particular
      the name does not tell `12:30` from `12-30`. */
  lemma SnapshotFilenameCollision(a: string, b: string)
    ensures SnapshotFilename(a) == SnapshotFilename(b) <==> ReplaceColons(a) == ReplaceColons(b)
  {
  }

  /** The name recorded for a typical `toISOString()` value. */
  lemma SnapshotFilenameExample()
    ensures SnapshotFilename("2024-05-01T12:34:56.789Z") == "detection_2024-05-01T12-34-56.789Z.png"
  {
  }
}

=== FILE: gallery.dfy ===
/** The main view's user actions on its lists: saving the current face
    to the gallery and adding a custom camera. */
module Gallery {
  import opened Wrappers
  import opened Overlay
  import opened Filenames
  import opened Storage
  import Detection

  /** A named capture: the user's name for it and the JPEG data URL. */
  datatype SavedFace = SavedFace(name: string, imageUrl: string)

  /** A transient toast. */
  datatype Notice = Success(text: string) | Failure(text: string)

  /** A download triggered through a temporary link. */
  datatype Download = Download(url: string, filename: string)

  const SaveRefused: string := "Please enter a name and ensure a face is detected"
  const CameraAdded: string := "Custom camera added successfully!"

  /** What a save leaves behind: the gallery, the name field, the toasts and the downloads. */
  datatype SaveOutcome = SaveOutcome(faces: Store<SavedFace>, name: string, notices: seq<Notice>, downloads: seq<Download>)

  predicate SaveAccepted(name: string, detected: seq<Box>, jpeg: Option<string>) {
    |detected| > 0 && name != "" && jpeg.Some?
  }

  /** `saveFace`. `detected` is the detected-faces state, `name` the name
      field and `jpeg` the canvas as a JPEG data URL (`None` when there is
      no canvas). With a detection, a name and a canvas, exactly one entry is
      appended, the whole gallery is written back, the name field is cleared
      and the image is downloaded as `detect-faces/<name>.jpg`. Without a
      detection or a name nothing changes and an error toast is shown;
      without a canvas nothing happens at all. */
  function SaveFace(faces: Store<SavedFace>, name: string, detected: seq<Box>, jpeg: Option<string>): (r: SaveOutcome)
    ensures SaveAccepted(name, detected, jpeg) ==>
      && r.faces.list == faces.list + [SavedFace(name, jpeg.value)]
      && Synced(r.faces)
      && r.name == ""
      && r.notices == [Success("Face saved for " + name)]
      && r.downloads == [Download(jpeg.value, FaceFilename(name))]
    ensures !SaveAccepted(name, detected, jpeg) ==> r.faces == faces && r.name == name && r.downloads == []
    ensures |detected| == 0 || name == "" ==> r.notices == [Failure(SaveRefused)]
    ensures |detected| > 0 && name != "" && jpeg.None? ==> r.notices == []
  {
    if |detected| > 0 && name != "" then
      match jpeg
      case Some(url) =>
        SaveOutcome(Commit(faces.list + [SavedFace(name, url)]), "",
                    [Success("Face saved for " + name)], [Download(url, FaceFilename(name))])
      case None => SaveOutcome(faces, name, [], [])
    else SaveOutcome(faces, name, [Failure(SaveRefused)], [])
  }

  /** A save grows the gallery by one exactly when it is accepted, and
      otherwise leaves it as it was; earlier entries are never touched. */
  lemma SaveFaceGrowsIffAccepted(faces: Store<SavedFace>, name: string, detected: seq<Box>, jpeg: Option<string>)
    ensures var r := SaveFace(faces, name, detected, jpeg).faces.list;
      && (|r| == |faces.list| + 1 <==> SaveAccepted(name, detected, jpeg))
      && (|r| == |faces.list| <==> !SaveAccepted(name, detected, jpeg))
      && r[..|faces.list|] == faces.list
  {
  }

  /** After a live cycle that ran and found no face, saving is refused and
      the gallery is unchanged, whatever the name and canvas. */
  lemma NoSaveAfterEmptyCycle(p: Detection.Prereqs, c: Detection.Canvas, detecting: bool, ts: string,
                              previous: seq<Box>, faces: Store<SavedFace>, name: string, jpeg: Option<string>)
    requires Detection.Ready(p)
    ensures var detected := Detection.LiveCycle(p, c, detecting, [], ts).detected.GetOr(previous);
      var r := SaveFace(faces, name, detected, jpeg);
      r.faces == faces && r.notices == [Failure(SaveRefused)]
  {
  }

  /** Scenario: saving "Alice" with one detection grows a K-entry gallery to
      K + 1 entries ending in Alice's capture, downloaded as `detect-faces/Alice.jpg`. */
  lemma SaveAliceScenario(faces: Store<SavedFace>, b: Box, url: string)
    ensures var r := SaveFace(faces, "Alice", [b], Some(url));
      && |r.faces.list| == |faces.list| + 1
      && r.faces.list[|faces.list|] == SavedFace("Alice", url)
      && r.downloads == [Download(url, "detect-faces/Alice.jpg")]
  {
    assert FaceFilename("Alice") == "detect-faces/Alice.jpg";
  }

  /** The main view's camera list after a prompt, and the toasts shown. */
  datatype CameraOutcome = CameraOutcome(cameras: seq<string>, notices: seq<Notice>)

  /** `addCustomCamera`: the prompt's answer (`None` when cancelled) is
      appended when it is a non-empty string, with a success toast; otherwise
      nothing happens. This list is not persisted. */
  function AddCustomCamera(cameras: seq<string>, answer: Option<string>): (r: CameraOutcome)
    ensures answer.Some? && answer.value != "" ==> r == CameraOutcome(cameras + [answer.value], [Success(CameraAdded)])
    ensures answer.None? || answer.value == "" ==> r == CameraOutcome(cameras, [])
  {
    match answer
    case Some(url) => if url != "" then CameraOutcome(cameras + [url], [Success(CameraAdded)]) else CameraOutcome(cameras, [])
    case None => CameraOutcome(cameras, [])
  }

  /** A camera list grows by one exactly when the answer is a non-empty string,
      and the earlier cameras keep their places. */
  lemma AddCustomCameraIff(cameras: seq<string>, answer: Option<string>)
    ensures var r := AddCustomCamera(cameras, answer).cameras;
      && (|r| == |cameras| + 1 <==> answer.Some? && answer.value != "")
      && r[..|cameras|] == cameras
  {
  }
}

=== FILE: overlay.dfy ===
/** The drawing vocabulary of the overlay canvas and the per-detection
    rectangle-and-label drawing shared by the live cycle and the upload. */
module Overlay {
  import opened Decimal

  /** A pixel position; the detector's fractional coordinates are taken as integers. */
  datatype Point = Point(x: int, y: int)

  /** One detected face: its bounding box's top-left and bottom-right corners. */
  datatype Box = Box(topLeft: Point, bottomRight: Point)

  const StrokeWidth: int := 2
  const StrokeColor: string := "red"
  const LabelFont: string := "16px Arial"
  const LabelColor: string := "red"
  /** How far above the box's top edge the label's baseline sits. */
  const LabelLift: int := 5

  /** The canvas operations and side effects, in the order they are issued. */
  datatype Op =
    | ClearSurface(width: int, height: int)           // clearRect over the whole canvas
    | DrawFrame(width: int, height: int)              // current video frame scaled to the canvas
    | DrawImage(width: int, height: int)              // uploaded image at its own size, at (0, 0)
    | PlaySound                                       // the notification sound
    | Snapshot(filename: string)                      // download of the canvas as PNG
    | StrokeRect(x: int, y: int, w: int, h: int, lineWidth: int, color: string)
    | FillText(text: string, x: int, y: int, font: string, color: string)

  /** The label drawn for the detection at 0-based position `index`. */
  function FaceLabel(index: nat): (t: string)
    ensures |t| > 5 && t[..5] == "Face "
    ensures AllDigits(t[5..]) && ParseDecimal(t[5..]) == index + 1
    ensures t[5] != '0'
  {
    ParseNatToString(index + 1);
    "Face " + NatToString(index + 1)
  }

  /** The red 2-pixel outline of a box: at its top-left corner, as wide and
      as high as the corners are apart. */
  function BoxRect(b: Box): Op {
    StrokeRect(b.topLeft.x, b.topLeft.y,
               b.bottomRight.x - b.topLeft.x, b.bottomRight.y - b.topLeft.y,
               StrokeWidth, StrokeColor)
  }

  /** The label of the box at 0-based position `index`, 5 pixels above its corner. */
  function BoxLabel(b: Box, index: nat): Op {
    FillText(FaceLabel(index), b.topLeft.x, b.topLeft.y - LabelLift, LabelFont, LabelColor)
  }

  /** The rectangle and label for every detection, in the detector's order:
      two ops per box, the outline of the i-th box followed by its label. */
  function BoxOps(preds: seq<Box>): (ops: seq<Op>)
    ensures |ops| == 2 * |preds|
    ensures forall i :: 0 <= i < |preds| ==> ops[2 * i] == BoxRect(preds[i])
    ensures forall i :: 0 <= i < |preds| ==> ops[2 * i + 1] == BoxLabel(preds[i], i)
  {
    if preds == [] then []
    else
      var k := |preds| - 1;
      BoxOps(preds[..k]) + [BoxRect(preds[k]), BoxLabel(preds[k], k)]
  }

  /** The rectangles of an op trace, in trace order. */
  function Rects(ops: seq<Op>): (rs: seq<Op>)
    ensures |rs| <= |ops|
    ensures forall r :: r in rs ==> r.StrokeRect?
  {
    if ops == [] then []
    else Rects(ops[..|ops| - 1]) + (if ops[|ops| - 1].StrokeRect? then [ops[|ops| - 1]] else [])
  }

  /** The texts of the labels of an op trace, in trace order. */
  function Labels(ops: seq<Op>): seq<string>
  {
    if ops == [] then []
    else Labels(ops[..|ops| - 1]) + (if ops[|ops| - 1].FillText? then [ops[|ops| - 1].text] else [])
  }

  lemma RectsAppend(a: seq<Op>, b: seq<Op>)
    ensures Rects(a + b) == Rects(a) + Rects(b)
    decreases |b|
  {
    if b == [] {
      assert a + b == a;
    } else {
      assert (a + b)[..|a + b| - 1] == a + b[..|b| - 1];
      RectsAppend(a, b[..|b| - 1]);
    }
  }

  lemma LabelsAppend(a: seq<Op>, b: seq<Op>)
    ensures Labels(a + b) == Labels(a) + Labels(b)
    decreases |b|
  {
    if b == [] {
      assert a + b == a;
    } else {
      assert (a + b)[..|a + b| - 1] == a + b[..|b| - 1];
      LabelsAppend(a, b[..|b| - 1]);
    }
  }

  lemma RectsOfPair(b: Box, k: nat)
    ensures Rects([BoxRect(b), BoxLabel(b, k)]) == [BoxRect(b)]
    ensures Labels([BoxRect(b), BoxLabel(b, k)]) == [FaceLabel(k)]
  {
    var pair := [BoxRect(b), BoxLabel(b, k)];
    assert pair[..1] == [BoxRect(b)];
    assert pair[..1][..0] == [];
    assert Labels(pair[..1]) == [];
    assert Rects(pair[..1]) == [BoxRect(b)];
  }

  /** For N detections the overlay strokes exactly N rectangles, the i-th
      at the i-th box's top-left corner with the box's width and height. */
  lemma {:induction false} RectsOfBoxOps(preds: seq<Box>)
    ensures |Rects(BoxOps(preds))| == |preds|
    ensures forall i :: 0 <= i < |preds| ==>
      var tl, br := preds[i].topLeft, preds[i].bottomRight;
      Rects(BoxOps(preds))[i] == StrokeRect(tl.x, tl.y, br.x - tl.x, br.y - tl.y, 2, "red")
  {
    if preds != [] {
      var k := |preds| - 1;
      RectsOfBoxOps(preds[..k]);
      RectsAppend(BoxOps(preds[..k]), [BoxRect(preds[k]), BoxLabel(preds[k], k)]);
      RectsOfPair(preds[k], k);
      assert Rects(BoxOps(preds)) == Rects(BoxOps(preds[..k])) + [BoxRect(preds[k])];
    }
  }

  /** For N detections the labels read `Face 1`, ..., `Face N`, in order. */
  lemma {:induction false} LabelsOfBoxOps(preds: seq<Box>)
    ensures |Labels(BoxOps(preds))| == |preds|
    ensures forall i :: 0 <= i < |preds| ==> Labels(BoxOps(preds))[i] == FaceLabel(i)
  {
    if preds != [] {
      var k := |preds| - 1;
      LabelsOfBoxOps(preds[..k]);
      LabelsAppend(BoxOps(preds[..k]), [BoxRect(preds[k]), BoxLabel(preds[k], k)]);
      RectsOfPair(preds[k], k);
    }
  }

  /** No two detections of one frame carry the same label. */
  lemma FaceLabelsDistinct(i: nat, j: nat)
    ensures FaceLabel(i) == FaceLabel(j) <==> i == j
  {
  }

  /** The box ops only draw: no clearing, no frame, no sound, no snapshot. */
  lemma {:induction false} BoxOpsOnlyDraw(preds: seq<Box>)
    ensures forall op :: op in BoxOps(preds) ==> op.StrokeRect? || op.FillText?
  {
    if preds != [] {
      BoxOpsOnlyDraw(preds[..|preds| - 1]);
    }
  }

  /** Scenario: one box from (10, 10) to (50, 50) is drawn 40 by 40 at
      (10, 10) and labelled `Face 1` at (10, 5). */
  lemma SingleBoxScenario()
    ensures BoxOps([Box(Point(10, 10), Point(50, 50))])
         == [StrokeRect(10, 10, 40, 40, 2, "red"), FillText("Face 1", 10, 5, "16px Arial", "red")]
  {
    assert NatToString(1) == "1";
    assert FaceLabel(0) == "Face 1";
  }
}

=== FILE: storage.dfy ===
/** A list kept in local storage under one key. The JSON encoding is taken
    as the identity on the list; a missing key is `None`. The list is read
    once when the view mounts, and the whole list is written back after the
    first render and whenever it changes. The model keeps the state once
    mounting has settled (see `Mount`). */
module Storage {
  import opened Wrappers

  /** The list a view starts from: the stored list if there is one, else empty. */
  function Load<T>(stored: Option<seq<T>>): seq<T>
  {
    stored.GetOr([])
  }

  /** The stored value after the whole list has been written back. */
  function Persist<T>(list: seq<T>): (stored: Option<seq<T>>)
    ensures stored.Some?
    ensures Load(stored) == list
  {
    Some(list)
  }

  /** A view's list together with what the storage key holds. */
  datatype Store<T> = Store(list: seq<T>, stored: Option<seq<T>>)

  /** The storage key holds exactly the current list. */
  predicate Synced<T(==)>(s: Store<T>) {
    s.stored == Some(s.list)
  }

  /** Mounting, once settled: the list is loaded and the write-back effect
      has stored it. (The write-back of the still-empty initial list that
      precedes it is not modelled.) */
  function Mount<T(==)>(stored: Option<seq<T>>): (s: Store<T>)
    ensures Synced(s)
    ensures stored.Some? ==> s.list == stored.value
    ensures stored.None? ==> s.list == []
  {
    var list := Load(stored);
    Store(list, Persist(list))
  }

  /** Setting a new list: the write-back effect rewrites the whole key. */
  function Commit<T(==)>(list: seq<T>): (r: Store<T>)
    ensures Synced(r) && r.list == list
  {
    Store(list, Persist(list))
  }

  /** Whatever a view leaves synced, a fresh mount reads back unchanged. */
  lemma RemountRoundTrip<T>(s: Store<T>)
    requires Synced(s)
    ensures Mount(s.stored) == s
  {
  }

  /** Writing back what was just loaded changes nothing in storage when the key was present. */
  lemma MountKeepsStored<T>(stored: Option<seq<T>>)
    requires stored.Some?
    ensures Mount(stored).stored == stored
  {
  }
}

=== FILE: wrappers.dfy ===
/** Optional values: a JavaScript value that may be `null`/`undefined`,
    a storage key that may be missing, a file input that may be empty. */
module Wrappers {

  datatype Option<+T> = None | Some(value: T) {

    /** The wrapped value, or `default` when there is none. */
    function GetOr(default: T): T {
      match this
      case Some(v) => v
      case None => default
    }
  }
}
